=== FILE: README.md ===
# Steak tracker — a Dafny model of its two servers

The steak tracker records the steaks a user buys (cut, cost, weight, an
optional photo and a time stamp). Two back ends serve the same single-page
front end:

- `server.js`, the Express server. It resolves the requesting user from the
  `x-user-id` header, the body's `user` or the query's `user`. It names
  uploaded photos by a fresh uuid plus the original extension. It keeps two
  SQLite tables: `steaks` (uuid text ids, one owner per row) and `users`
  (name and bcrypt hash).
- `STEAK/main.py`, the earlier Flask server. Its `_db` class wraps an
  ownerless `steaks` table whose integer ids come from SQLite's
  AUTOINCREMENT.

The model is split into these modules:

- `Json` (json.dfy): request values (`undefined`, `null`, booleans, integers,
  other numbers, strings, arrays, objects), JavaScript and Python truthiness, `||`, and
  `toString`.
- `Collation` (collation.dfy): SQLite's BINARY and NOCASE orders and a stable
  sort by a text key. This is what `ORDER BY` does.
- `Paths` (paths.dfy): Node's `path.extname`, Python's `os.path.splitext`, and
  the upload naming rule.
- `SteakServer` (server.dfy): the Express handlers. The database is a `Store`
  object whose fields are the two tables as sequences of rows.
- `SteakFlask` (flask.dfy): the `_db` class as a `SteakDb` object holding the
  rows and the AUTOINCREMENT counter, plus the Flask handlers.
- `SteakScenarios` (scenarios.dfy): sequences of requests, proved from the
  handlers' contracts alone.

These values come from outside the program and are parameters of the model:

- the fresh uuid;
- the clock reading;
- bcrypt's hash, and its password check;
- the error an SQL statement may report (one `Option<string>` per statement).

How the two servers check and name what they store:

- Neither server checks that cost and weight are non-negative. `server.js`
  only tests truthiness, so it accepts negative values and refuses `0`.
  `main.py` only tests for `None`, so it accepts `0` (`SteakScenarios.ZeroCostDiffers`).
- `main.py` stores `float(cost)` and `float(weight)`. It lets a list or dict
  through its field test, but Python's sqlite3 cannot bind one (nor can
  `float()` convert one), so the request fails with 500 and the table is
  unchanged (`SteakScenarios.ListTypeRefused`). An integer outside SQLite's
  64-bit INTEGER range fails the same way as `type` or `photo`
  (`SteakScenarios.HugeIntTypeRefused`), and as cost or weight once it is too
  large for a double.
- Photo file names follow `path.extname` in one server and `os.path.splitext`
  in the other. On a name without a slash they disagree exactly when the last
  dot ends a run of two or more leading dots and the name is not `..`, as in
  `..png` or `...` (`Paths.ExtensionRulesDiffer`). There `extname` keeps the
  text from the last dot, and `splitext` gives nothing, so the Flask server
  falls back to `.jpg`. As library functions they also disagree on a path ending
  in a slash (`Paths.TrailingSlashDiffer`).
- The owner `getUserIdFromReq` resolves is `anonymous` when nothing names one,
  but a truthy value that converts to empty text, such as the body
  `{"user": []}`, gives the empty owner (`SteakServer.EmptyArrayOwner`).

## Model

| member | source | states |
|---|---|---|
| Json.Or | server.js:54 | JavaScript's or-operator is truthy exactly when one operand is, and is one of the two operands |
| Json.ToText | server.js:54 | `toString` of a truthy value other than an array is non-empty; a string converts to itself; `[]` and `['']` convert to empty text |
| Json.Credential | server.js:102-104 | the text of a form field or the empty string is empty exactly when the field is falsy or converts to empty text, else it is the field's text |
| Json.NaturalText | server.js:54 | the text of a natural number is decimal digits with no leading zero |
| Json.NaturalTextValue | server.js:54 | reading the digits of a natural number's text back gives the number |
| Collation.LeReflexive | server.js:77 | BINARY order puts every text no later than itself |
| Collation.LeTotal | server.js:77 | any two texts are comparable under BINARY order |
| Collation.LeTransitive | server.js:77 | BINARY order is transitive |
| Collation.LeAntisymmetric | server.js:77 | two texts each no later than the other are equal |
| Collation.FoldCharEqual | server.js:130 | two characters fold alike exactly when they are equal or are the two cases of one ASCII letter |
| Collation.NoCaseEqual | server.js:130 | two names get equal NOCASE keys exactly when they have one length and differ only in the case of ASCII letters |
| Collation.Insert | server.js:77 | inserting into a sorted list adds exactly that element and keeps the list sorted |
| Collation.SortBy | server.js:77 | `ORDER BY`: the result is a permutation of the input, sorted by the key in the chosen direction |
| Collation.DistinctPermutation | server.js:47-50 | a rearrangement of a list without repeats has no repeats |
| Paths.Extname | server.js:17 | `path.extname` gives "" or a dot followed by no dot and no slash |
| Paths.SplitExt | STEAK/main.py:18 | the extension `splitext` gives is "" or a dot-extension that ends the path |
| Paths.KeptExtension | server.js:17 | the extension or `.jpg` is always an extension and keeps a non-empty one |
| Paths.UploadName | server.js:18 | the stored name is the fresh token followed by an extension, the given one when it is non-empty |
| Paths.UploadNameExtension | server.js:16-19 | a stored name gives back the kept extension under both `extname` and `splitext` |
| Paths.ExtensionRulesAgree | STEAK/main.py:18 | on a name without slash that does not start with a dot, `splitext` and `extname` agree |
| Paths.ExtensionRulesDiffer | STEAK/main.py:18 | on a name without a slash, `extname` and `splitext` disagree exactly on a leading dot run other than `..`; there `extname` gives the text from the last dot and `splitext` gives "" |
| Paths.DoubleDotName | STEAK/main.py:18 | on `..png`, `extname` gives `.png` and `splitext` gives "" |
| Paths.DotsOnlyDiffer | STEAK/main.py:18 | the rules differ on a name of three or more dots such as `...`: `extname` gives `.`, `splitext` gives "" |
| Paths.TrailingSlashDiffer | STEAK/main.py:18 | the rules differ on `rib.png/`: `extname` gives `.png`, `splitext` gives "" |
| SteakServer.ResolveOwner | server.js:53-55 | the owner is the first truthy of header, body `user` and query `user`, as text, else `anonymous`; it is empty only when one of the three is an array |
| SteakServer.EmptyArrayOwner | server.js:54 | a body `user` of `[]` with no truthy header gives the empty owner, not `anonymous` |
| SteakServer.Upload | server.js:57-60 | 400 exactly when no file came; otherwise 200 with the name made of the uuid and the kept `extname` extension, which `extname` gives back |
| SteakServer.OwnedBy | server.js:77 | the `WHERE user_id = ?` selection is no longer than the table |
| SteakServer.OwnedByCount | server.js:77 | the selection holds each of the owner's rows as often as the table does, and no other row |
| SteakServer.OwnedByAppend | server.js:77 | selecting from two tables joined is joining the selections |
| SteakServer.AddedSteakListed | server.js:68-79 | after an add, the new row is among its owner's rows and every other owner's rows are unchanged |
| SteakServer.Find | server.js:86 | the `SELECT` finds nothing exactly when no row matches id and owner; a found row matches and is in the table |
| SteakServer.Without | server.js:89 | the `DELETE` leaves no more rows than there were |
| SteakServer.WithoutCount | server.js:89 | the `DELETE` removes every matching row and keeps every other row as often as before |
| SteakServer.SameIdSameRow | server.js:39 | under the `id` PRIMARY KEY, two rows with one id are the same row |
| SteakServer.UniqueRowCount | server.js:39 | under the `id` PRIMARY KEY, a row occurs exactly once |
| SteakServer.DeleteRemovesOne | server.js:86-96 | a successful delete removes exactly the found row: the multiset loses that row and the length drops by one |
| SteakServer.DeleteLeavesNoMatch | server.js:89 | after a delete, no row of that owner carries that id |
| SteakServer.DeleteLeavesOthers | server.js:89 | a delete leaves every other owner's rows as they were |
| SteakServer.WithoutUnique | server.js:89 | deleting keeps the steak ids unique |
| SteakServer.Lookup | server.js:105 | the `SELECT password` finds nothing exactly when the name is absent; otherwise it gives a hash stored with that name |
| SteakServer.LookupAfterRegister | server.js:118-124 | after a name is registered, it looks up to its hash and every other name looks up as before |
| SteakServer.LookupFindsAccount | server.js:47-50 | under the `username` PRIMARY KEY, every stored account is the one the lookup finds |
| SteakServer.UniqueNamesDistinct | server.js:47-50 | the `username` PRIMARY KEY holds exactly when the listed names have no repeats |
| SteakServer.Store.Open | server.js:37-51 | opening the database gives tables that keep their PRIMARY KEYs |
| SteakServer.Store.AddSteak | server.js:62-73 | 400 on a falsy type, cost or weight; 500 on a failed or duplicate-id INSERT; otherwise one row is appended with the resolved owner and a falsy photo stored as null, and that row is returned; ids stay unique |
| SteakServer.Store.ListSteaks | server.js:75-81 | 500 on error; otherwise exactly the requester's rows, as a permutation of them, newest time stamp first |
| SteakServer.Store.DeleteSteak | server.js:83-99 | 500 or 404 leave the table unchanged (a foreign id gives the same 404 as a missing one); 200 removes exactly the found row and reports its photo for unlinking when its stored text is non-empty |
| SteakServer.Store.Login | server.js:101-112 | 400 on missing credentials, 500 on error, 401 for an unknown name or a wrong password; 200 exactly when a stored account of that name passes the password check |
| SteakServer.Store.Register | server.js:114-127 | 400 on missing credentials, 500 on error, 409 for a taken name; otherwise the account is appended and names stay unique |
| SteakServer.Store.ListUsers | server.js:129-135 | 500 on error; otherwise every user name exactly once, in NOCASE order |
| SteakFlask.Upload | STEAK/main.py:13-22 | 400 exactly when no `photo` part came; otherwise the stored name is the uuid followed by the kept `splitext` extension, which `splitext` gives back, and the url is `/uploads/` plus the name |
| SteakFlask.SteakDb.Open | STEAK/main.py:32-43 | the table is in rowid order and every id was issued by the counter |
| SteakFlask.SteakDb.AddSteak | STEAK/main.py:53-61 | AUTOINCREMENT: the new id is one past the largest id ever issued, so it exceeds every earlier id, deleted ones included; a value sqlite3 cannot bind (a list, a dict, an integer outside the 64-bit range), or the largest rowid reached, makes the insert fail and nothing changes |
| SteakFlask.SteakDb.GetSteaks | STEAK/main.py:63-68 | every row, in strictly increasing id order |
| SteakFlask.SteakDb.DeleteAll | STEAK/main.py:70-74 | the table empties and the counter keeps its value |
| SteakFlask.SteakDb.GetLatestSteak | STEAK/main.py:76-81 | None exactly when the table is empty; otherwise the row with the largest id |
| SteakFlask.AddSteak | STEAK/main.py:102-123 | 400 when type is falsy or cost or weight is None; 500, with nothing changed, when `float()` raises, a value cannot be bound or ids are exhausted; otherwise the row is appended with cost and weight as `float()` makes them under the next id, the counter moves to that id, which exceeds every id issued before, and the row is returned field by field |
| SteakFlask.ListSteaks | STEAK/main.py:86-99 | one object per row, field by field, same count, same order, ids ascending |
| SteakScenarios.AddThenList | server.js:62-81 | Alice's added steak is all her list holds; Bob's list is empty |
| SteakScenarios.DeleteIsPrivate | server.js:83-99 | another user's delete of an existing id is answered like one for a missing id, and the table stays |
| SteakScenarios.RegisterThenLogin | server.js:101-127 | a registered user can log in; registering the name again gives 409 and the login still works |
| SteakScenarios.DeleteAllKeepsCounting | STEAK/main.py:41 | after `delete_all`, the next id is larger than every id handed out before, the deleted one included |
| SteakScenarios.ListTypeRefused | STEAK/main.py:109-111 | a list as the type passes the field test, and the insert then fails with 500, leaving the table and counter unchanged |
| SteakScenarios.HugeIntTypeRefused | STEAK/main.py:53-56 | an integer type of 2^63 passes the field test, and the insert fails with 500, leaving the table and counter unchanged |
| SteakScenarios.ZeroCostDiffers | STEAK/main.py:109 | a zero cost is refused by `server.js` (400) and stored by `main.py` (200) |

## Left out

- Transport is not modelled: Express, Flask, body parsing, static file serving, `/uploads/<path>`, `/` and `app.listen`/`app.run`.
- Uploaded bytes are not modelled: multer's and Flask's writes to disk, and `fs.unlink`. `SteakServer.Store.DeleteSteak` returns the photo to unlink instead, so the store-then-fetch round trip of a photo is not modelled.
- SteakServer.Store.DeleteSteak: the photo it reports for unlinking is the value as sent, not the text the `photo` column holds. node-sqlite3 binds arrays and objects as their text, and TEXT affinity turns numbers into text, so `row.photo` is always text or null. The model decides whether to unlink by the sent value's JavaScript text, which is empty exactly when the stored text is. The file name it reports can still differ from the stored text for a number or a boolean: node-sqlite3 binds `true` as the integer 1, stored as `1`, and a number outside the 32-bit range is bound as a REAL, so `2147483648` is stored as `2147483648.0`.
- multer hands `path.extname` only the last segment of the client's file name, so the trailing-slash difference (`Paths.TrailingSlashDiffer`) never reaches `server.js`. `SteakServer.Upload` takes the original name as given and does not model that stripping.
- `_db.connect`, `_db.disconnect` and `_db.setup` are connection handling. `CREATE TABLE` is modelled by the `Open` constructors, which take the rows already in the file.
- SQLite column affinity (TEXT, REAL) is not modelled: values are stored as sent.
- SteakFlask.AddSteak: `float()` of a string is not modelled. A value such as `"abc"` raises, and Flask would answer 500; `"1.5"` converts to a float. The model stores a string unconverted. An integer converts to its exact value; the rounding to the nearest double is not modelled.
- SteakFlask.AddSteak: the `request.get_json() or {}` case of a JSON body that is not an object is not modelled. The body is always a map.
- Json.NumberText: renders a number as the decimal text of its floor, so `-1.5` gives `-2` where JavaScript writes `-1.5`. It matches JavaScript only for integral numbers below 10^21 in magnitude; the shortest round-trip decimal and the exponent form (`1e+21`) are not modelled, so `SteakServer.ResolveOwner` on such a numeric user id is approximate.
- `Json.Value`: JavaScript parses every JSON number as a double, and the model keeps an integer's exact value; the loss of precision past 2^53 is not modelled.
- Objects are not looked into: every object converts to `[object Object]`, and only their emptiness matters to Python truthiness.
- Collation.SortBy: SQLite leaves the order of rows with equal keys unspecified. The model sorts stably, and the handlers' contracts only promise a sorted permutation.
- Concurrency is not modelled. Each request runs alone, so the race in `main.py` between the INSERT and `get_latest_steak` on separate connections is out of scope.
- `SteakFlask.SteakDb.AddSteak` gets its timestamp as a parameter. It stands for the column's `CURRENT_TIMESTAMP` default.
- `STEAK/app.js` and `STEAK/camera.js` (the browser front end) are not part of this model.

=== FILE: collation.dfy ===
/**
  The orderings the storage engine applies in `ORDER BY`: SQLite's BINARY
  collation (code-point order, a proper prefix first) and its NOCASE
  collation (BINARY after folding the 26 ASCII capitals), and a stable
  sort by a text key in either direction.
 */
module Collation {

  /** BINARY collation: `a` sorts no later than `b`. */
  predicate Le(a: string, b: string)
    decreases |a|
  {
    a == [] || (b != [] && (a[0] < b[0] || (a[0] == b[0] && Le(a[1..], b[1..]))))
  }

  lemma {:induction false} LeReflexive(a: string)
    ensures Le(a, a)
    decreases |a|
  {
    if a != [] {
      LeReflexive(a[1..]);
    }
  }

  lemma {:induction false} LeTotal(a: string, b: string)
    ensures Le(a, b) || Le(b, a)
    decreases |a|
  {
    if a != [] && b != [] && a[0] == b[0] {
      LeTotal(a[1..], b[1..]);
    }
  }

  lemma {:induction false} LeTransitive(a: string, b: string, c: string)
    requires Le(a, b) && Le(b, c)
    ensures Le(a, c)
    decreases |a|
  {
    if a != [] && a[0] == b[0] && b[0] == c[0] {
      LeTransitive(a[1..], b[1..], c[1..]);
    }
  }

  lemma {:induction false} LeAntisymmetric(a: string, b: string)
    requires Le(a, b) && Le(b, a)
    ensures a == b
    decreases |a|
  {
    if a != [] {
      LeAntisymmetric(a[1..], b[1..]);
      assert a == [a[0]] + a[1..] && b == [b[0]] + b[1..];
    }
  }

  /** NOCASE folds only the ASCII capitals A-Z to lower case. */
  function FoldChar(c: char): (d: char)
    ensures !('A' <= d <= 'Z')
    ensures !('A' <= c <= 'Z') ==> d == c
  {
    if 'A' <= c <= 'Z' then (c as int + 32) as char else c
  }

  /** The text NOCASE compares in place of `s`. */
  function NoCase(s: string): (r: string)
    ensures |r| == |s|
    ensures forall i | 0 <= i < |s| :: r[i] == FoldChar(s[i])
  {
    seq(|s|, i requires 0 <= i < |s| => FoldChar(s[i]))
  }

  /** `c` and `d` are the same character up to the case of an ASCII letter. */
  predicate SameUpToCase(c: char, d: char) {
    c == d || ('A' <= c <= 'Z' && d as int == c as int + 32) || ('A' <= d <= 'Z' && c as int == d as int + 32)
  }

  lemma FoldCharEqual(c: char, d: char)
    ensures FoldChar(c) == FoldChar(d) <==> SameUpToCase(c, d)
  {
  }

  /** Two texts get the same NOCASE key exactly when they differ only in the case of
      ASCII letters; no other character is folded. */
  lemma NoCaseEqual(a: string, b: string)
    ensures NoCase(a) == NoCase(b) <==> |a| == |b| && forall i | 0 <= i < |a| :: SameUpToCase(a[i], b[i])
  {
    if NoCase(a) == NoCase(b) {
      forall i | 0 <= i < |a| ensures SameUpToCase(a[i], b[i]) {
        assert NoCase(a)[i] == NoCase(b)[i];
        FoldCharEqual(a[i], b[i]);
      }
    }
    if |a| == |b| && forall i | 0 <= i < |a| :: SameUpToCase(a[i], b[i]) {
      forall i | 0 <= i < |a| ensures NoCase(a)[i] == NoCase(b)[i] {
        FoldCharEqual(a[i], b[i]);
      }
    }
  }

  /** `a` may come before `b` in ascending (`desc` false) or descending order. */
  predicate InOrder(a: string, b: string, desc: bool) {
    if desc then Le(b, a) else Le(a, b)
  }

  lemma InOrderTotal(a: string, b: string, desc: bool)
    ensures InOrder(a, b, desc) || InOrder(b, a, desc)
  {
    LeTotal(a, b);
  }

  lemma InOrderTransitive(a: string, b: string, c: string, desc: bool)
    requires InOrder(a, b, desc) && InOrder(b, c, desc)
    ensures InOrder(a, c, desc)
  {
    if desc { LeTransitive(c, b, a); } else { LeTransitive(a, b, c); }
  }

  /** Every element's key is in order with every later element's key. */
  predicate SortedBy<T>(s: seq<T>, key: T -> string, desc: bool) {
    forall i, j | 0 <= i < j < |s| :: InOrder(key(s[i]), key(s[j]), desc)
  }

  /** Puts `x` before the first element it may precede; so `x` lands ahead of equal keys. */
  function Insert<T>(x: T, s: seq<T>, key: T -> string, desc: bool): (r: seq<T>)
    requires SortedBy(s, key, desc)
    ensures multiset(r) == multiset(s) + multiset{x}
    ensures SortedBy(r, key, desc)
  {
    if s == [] then [x]
    else if InOrder(key(x), key(s[0]), desc) then
      assert forall j | 0 < j < |s| :: InOrder(key(x), key(s[j]), desc) by {
        forall j | 0 < j < |s| ensures InOrder(key(x), key(s[j]), desc) {
          InOrderTransitive(key(x), key(s[0]), key(s[j]), desc);
        }
      }
      [x] + s
    else
      var rest := Insert(x, s[1..], key, desc);
      assert s == [s[0]] + s[1..];
      assert InOrder(key(s[0]), key(x), desc) by { InOrderTotal(key(x), key(s[0]), desc); }
      assert forall y | y in multiset(rest) :: InOrder(key(s[0]), key(y), desc) by {
        forall y | y in multiset(rest) ensures InOrder(key(s[0]), key(y), desc) {
          assert y == x || y in multiset(s[1..]);
          if y != x {
            var j :| 0 <= j < |s[1..]| && s[1..][j] == y;
            assert s[j + 1] == y;
          }
        }
      }
      assert forall j | 0 <= j < |rest| :: rest[j] in multiset(rest);
      [s[0]] + rest
  }

  /** Insertion sort by key: a stable sort. */
  function SortBy<T>(s: seq<T>, key: T -> string, desc: bool): (r: seq<T>)
    ensures multiset(r) == multiset(s)
    ensures |r| == |s|
    ensures SortedBy(r, key, desc)
  {
    if s == [] then []
    else
      assert s == [s[0]] + s[1..];
      Insert(s[0], SortBy(s[1..], key, desc), key, desc)
  }

  /** No element occurs twice. */
  predicate Distinct<T(==)>(s: seq<T>) {
    forall i, j | 0 <= i < j < |s| :: s[i] != s[j]
  }

  lemma {:induction false} DistinctCount<T>(s: seq<T>, x: T)
    requires Distinct(s)
    ensures multiset(s)[x] <= 1
    decreases |s|
  {
    if s != [] {
      assert s == [s[0]] + s[1..];
      DistinctCount(s[1..], x);
      if x == s[0] {
        assert forall j | 0 <= j < |s[1..]| :: s[1..][j] != x by {
          forall j | 0 <= j < |s[1..]| ensures s[1..][j] != x {
            assert s[1..][j] == s[j + 1];
          }
        }
      }
    }
  }

  /** A rearrangement of a sequence without repetitions has none either. */
  lemma DistinctPermutation<T>(a: seq<T>, b: seq<T>)
    requires multiset(a) == multiset(b) && Distinct(a)
    ensures Distinct(b)
  {
    forall i, j | 0 <= i < j < |b| ensures b[i] != b[j] {
      if b[i] == b[j] {
        var x := b[i];
        assert b == b[..i] + [x] + b[i + 1..j] + [x] + b[j + 1..];
        assert multiset(b)[x] >= 2;
        DistinctCount(a, x);
      }
    }
  }
}

=== FILE: flask.dfy ===
/**
  The earlier Flask server (STEAK/main.py): the `_db` class over a `steaks`
  table without owners, whose ids come from SQLite's AUTOINCREMENT, and the
  `upload`, `add_steak` and `list_steaks` handlers. The clock and the fresh
  uuid arrive as parameters.
 */
module SteakFlask {
  import opened Json
  import opened Paths

  /** SQLite's largest rowid, 2^63 - 1. AUTOINCREMENT never goes past it. */
  const MaxRowId: int := 0x7FFF_FFFF_FFFF_FFFF

  /** A row as `fetchall` and `fetchone` return it:
      (id, type, cost, weight, photo_filename, timestamp). */
  type Row = (int, Value, Value, Value, Value, string)

  /** The JSON object a handler builds from a row. */
  datatype Steak = Steak(id: int, kind: Value, cost: Value, weight: Value, photo: Value, timestamp: string)

  datatype Payload =
    | Error(message: string)                 // { error }
    | Uploaded(filename: string, url: string) // { success: true, filename, url }
    | Record(steak: Steak)
    | Records(steaks: seq<Steak>)
    | ServerError                            // Flask's own page for an uncaught exception

  datatype Response = Response(status: int, payload: Payload)

  /** The dictionary `list_steaks` and `add_steak` build from a row, field by field. */
  function Describe(r: Row): Steak {
    Steak(r.0, r.1, r.2, r.3, r.4, r.5)
  }

  /** Strictly increasing ids: the table read in rowid order. */
  predicate Ascending(rows: seq<Row>) {
    forall i, j | 0 <= i < j < |rows| :: rows[i].0 < rows[j].0
  }

  /** POST /upload. `file` is the file name of the `photo` part when there is one. */
  function Upload(file: Option<string>, token: string): (r: Response)
    requires IsUuid(token)
    ensures file.None? <==> r == Response(400, Error("no file"))
    ensures file.Some? ==> r.status == 200 && r.payload.Uploaded?
    ensures file.Some? ==>
              && |r.payload.filename| > |token|
              && r.payload.filename[..|token|] == token
              && SplitExt(r.payload.filename) == KeptExtension(SplitExt(file.value))
              && r.payload.url == "/uploads/" + r.payload.filename
    ensures file.Some? ==> r.payload.filename == token + KeptExtension(SplitExt(file.value))
  {
    match file
    case None => Response(400, Error("no file"))
    case Some(original) =>
      var filename := UploadName(token, SplitExt(original));
      UploadNameExtension(token, SplitExt(original));
      Response(200, Uploaded(filename, "/uploads/" + filename))
  }

  /** Python's `v is None`: a missing member reads as None too. */
  predicate IsNone(v: Value) {
    v == Null || v == Absent
  }

  /** The test of POST /add_steak, negated: `type` truthy in Python's sense, `cost` and
      `weight` not None (so 0 is accepted for them). */
  predicate HasSteakFields(data: map<string, Value>) {
    PyTruthy(Get(data, "type")) && !IsNone(Get(data, "cost")) && !IsNone(Get(data, "weight"))
  }

  /** SQLite's INTEGER range, -2^63 .. 2^63 - 1. */
  const MinInteger: int := -0x8000_0000_0000_0000
  const MaxInteger: int := 0x7FFF_FFFF_FFFF_FFFF

  /** The least integer whose conversion to a double rounds up to 2^1024, past the
      largest finite double: `float()` raises OverflowError from there on. */
  const FloatOverflow: int := 0x1_0000_0000_0000_0000_0000_0000_0000_0000_0000_0000_0000_0000_0000_0000_0000_0000_0000_0000_0000_0000_0000_0000_0000_0000_0000_0000_0000_0000_0000_0000_0000_0000_0000_0000_0000_0000_0000_0000_0000_0000_0000_0000_0000_0000_0000_0000_0000_0000_0000_0000_0000_0000_0000_0000_0000_0000_0000_0000_0000_0000_0000_0000_0000_0000 - 0x400_0000_0000_0000_0000_0000_0000_0000_0000_0000_0000_0000_0000_0000_0000_0000_0000_0000_0000_0000_0000_0000_0000_0000_0000_0000_0000_0000_0000_0000_0000_0000_0000_0000_0000_0000_0000_0000_0000_0000_0000_0000_0000_0000_0000_0000_0000_0000_0000_0000_0000_0000_0000_0000_0000_0000_0000_0000_0000_0000_0000

  /** A value Python's sqlite3 can bind to a statement parameter: a list or dict makes
      `execute` raise, and so does an `int` outside SQLite's INTEGER range. */
  predicate Bindable(v: Value) {
    !v.Arr? && !v.Obj? && (v.Int? ==> MinInteger <= v.i <= MaxInteger)
  }

  /** A value `float()` converts without raising: not a list or dict, and no `int` that
      overflows a double. */
  predicate Floatable(v: Value) {
    !v.Arr? && !v.Obj? && (v.Int? ==> -FloatOverflow < v.i < FloatOverflow)
  }

  /** `float(v)` on a value that converts: an `int` or a bool becomes a float. */
  function ToFloat(v: Value): (r: Value)
    requires Floatable(v)
    ensures Bindable(r)
    ensures !v.Int? && !v.Bool? ==> r == v
    ensures v.Int? ==> r == Num(v.i as real)
  {
    match v
    case Int(i) => Num(i as real)
    case Bool(b) => Num(if b then 1.0 else 0.0)
    case _ => v
  }

  /** Every value of POST /add_steak converts and binds: `cost` and `weight` through
      `float()`, `type` and `photo` as sent. */
  predicate Storable(data: map<string, Value>) {
    Bindable(Get(data, "type")) && Floatable(Get(data, "cost")) &&
    Floatable(Get(data, "weight")) && Bindable(Get(data, "photo"))
  }

  /** The `_db` object: the `steaks` table and its AUTOINCREMENT counter. */
  class SteakDb {
    /** The table, in rowid order. */
    var rows: seq<Row>
    /** The table's entry in `sqlite_sequence`: the largest id ever handed out. */
    var lastId: int
    /** Every id ever handed out, deleted rows included. */
    ghost var issued: set<int>

    ghost predicate Valid()
      reads this
    {
      && 0 <= lastId <= MaxRowId
      && Ascending(rows)
      && (forall i | 0 <= i < |rows| :: rows[i].0 in issued)
      && (forall n | n in issued :: 0 < n <= lastId)
    }

    /** `_db(path)` on a database file whose table already holds `rows0` and whose
        counter stands at `lastId0`. */
    constructor Open(rows0: seq<Row>, lastId0: int)
      requires 0 <= lastId0 <= MaxRowId && Ascending(rows0)
      requires forall i | 0 <= i < |rows0| :: 0 < rows0[i].0 <= lastId0
      ensures Valid() && rows == rows0 && lastId == lastId0
    {
      rows := rows0;
      lastId := lastId0;
      issued := set i | 0 <= i < |rows0| :: rows0[i].0;
    }

    /** `_db.add_steak`: inserts one row and returns its id (`lastrowid`), one past the
        largest id ever issued. None is the exception `execute` raises: a value it cannot
        bind, or the SQLITE_FULL error once ids are exhausted. */
    method AddSteak(kind: Value, cost: Value, weight: Value, photo: Value, now: string) returns (id: Option<int>)
      requires Valid()
      modifies this
      ensures Valid()
      ensures var bindable := Bindable(kind) && Bindable(cost) && Bindable(weight) && Bindable(photo);
              !bindable || old(lastId) == MaxRowId ==>
                id.None? && rows == old(rows) && lastId == old(lastId) && issued == old(issued)
      ensures Bindable(kind) && Bindable(cost) && Bindable(weight) && Bindable(photo) && old(lastId) < MaxRowId ==>
                && id == Some(old(lastId) + 1)
                && rows == old(rows) + [(id.value, kind, cost, weight, photo, now)]
                && lastId == id.value
                && issued == old(issued) + {id.value}
      ensures id.Some? ==> forall n | n in old(issued) :: n < id.value
    {
      if !Bindable(kind) || !Bindable(cost) || !Bindable(weight) || !Bindable(photo) {
        return None;
      }
      var largest := if rows == [] then 0 else rows[|rows| - 1].0;
      var next := (if largest > lastId then largest else lastId) + 1;
      if next > MaxRowId {
        return None;
      }
      rows := rows + [(next, kind, cost, weight, photo, now)];
      lastId := next;
      issued := issued + {next};
      id := Some(next);
    }

    /** `_db.get_steaks`: every row, ordered by id. */
    method GetSteaks() returns (r: seq<Row>)
      requires Valid()
      ensures r == rows
      ensures Ascending(r)
    {
      r := rows;
    }

    /** `_db.delete_all`: the table empties; the counter keeps its value. */
    method DeleteAll()
      requires Valid()
      modifies this
      ensures Valid()
      ensures rows == [] && lastId == old(lastId) && issued == old(issued)
    {
      rows := [];
    }

    /** `_db.get_latest_steak`: the row with the largest id, or None for an empty table. */
    method GetLatestSteak() returns (r: Option<Row>)
      requires Valid()
      ensures r.None? <==> rows == []
      ensures r.Some? ==> r.value in rows && forall i | 0 <= i < |rows| :: rows[i].0 <= r.value.0
    {
      if rows == [] {
        return None;
      }
      r := Some(rows[|rows| - 1]);
    }
  }

  /** POST /add_steak. `cost` and `weight` are stored as `float()` makes them. A `float()`
      that raises and a failed insert both make Flask answer 500. */
  method AddSteak(db: SteakDb, data: map<string, Value>, now: string) returns (resp: Response)
    requires db.Valid()
    modifies db
    ensures db.Valid()
    ensures !HasSteakFields(data) ==>
              resp == Response(400, Error("missing fields")) &&
              db.rows == old(db.rows) && db.lastId == old(db.lastId) && db.issued == old(db.issued)
    ensures HasSteakFields(data) && (!Storable(data) || old(db.lastId) == MaxRowId) ==>
              resp == Response(500, ServerError) &&
              db.rows == old(db.rows) && db.lastId == old(db.lastId) && db.issued == old(db.issued)
    ensures HasSteakFields(data) && Storable(data) && old(db.lastId) < MaxRowId ==>
              var id := old(db.lastId) + 1;
              var cost, weight := ToFloat(Get(data, "cost")), ToFloat(Get(data, "weight"));
              var row := (id, Get(data, "type"), cost, weight, Get(data, "photo"), now);
              && db.rows == old(db.rows) + [row]
              && db.lastId == id && db.issued == old(db.issued) + {id}
              && resp == Response(200, Record(Steak(id, Get(data, "type"), cost, weight, Get(data, "photo"), now)))
              && forall n | n in old(db.issued) :: n < id
  {
    var kind := Get(data, "type");
    var cost := Get(data, "cost");
    var weight := Get(data, "weight");
    var photo := Get(data, "photo");
    if !PyTruthy(kind) || IsNone(cost) || IsNone(weight) {
      return Response(400, Error("missing fields"));
    }
    if !Floatable(cost) || !Floatable(weight) {
      return Response(500, ServerError);
    }
    var lastId := db.AddSteak(kind, ToFloat(cost), ToFloat(weight), photo, now);
    if lastId.None? {
      return Response(500, ServerError);
    }
    var row := db.GetLatestSteak();
    if row.None? {
      return Response(500, Error("insert failed"));
    }
    var last := |db.rows| - 1;
    var k :| 0 <= k < |db.rows| && db.rows[k] == row.value;
    assert db.rows[k].0 >= db.rows[last].0;
    assert forall i | 0 <= i < last :: db.rows[i].0 < db.rows[last].0;
    assert k == last;
    resp := Response(200, Record(Describe(row.value)));
  }

  /** GET /steaks: one object per row, same fields, same count, same order. */
  method ListSteaks(db: SteakDb) returns (resp: Response)
    requires db.Valid()
    ensures resp.status == 200 && resp.payload.Records?
    ensures |resp.payload.steaks| == |db.rows|
    ensures forall i | 0 <= i < |db.rows| ::
              var s, r := resp.payload.steaks[i], db.rows[i];
              s.id == r.0 && s.kind == r.1 && s.cost == r.2 && s.weight == r.3 &&
              s.photo == r.4 && s.timestamp == r.5
    ensures forall i, j | 0 <= i < j < |db.rows| :: resp.payload.steaks[i].id < resp.payload.steaks[j].id
  {
    var rows := db.GetSteaks();
    var steaks: seq<Steak> := [];
    for k := 0 to |rows|
      invariant |steaks| == k
      invariant forall i | 0 <= i < k :: steaks[i] == Describe(rows[i])
    {
      steaks := steaks + [Describe(rows[k])];
    }
    resp := Response(200, Records(steaks));
  }
}

=== FILE: json.dfy ===
/**
  Request values as the handlers of both servers see them: members of a
  parsed JSON body, query-string parameters and header values, together
  with the truthiness test and the string conversion the handlers apply.
 */
module Json {

  datatype Option<+T> = None | Some(value: T)

  /** A request value. `Absent` is a member that is not there at all
      (JavaScript's `undefined`); `Null` is an explicit JSON null (Python's `None`).
      `Int` is a JSON number written without fraction or exponent, which Python reads
      as an `int`; `Num` is any other number, a Python `float`.
      Arrays and objects come from JSON bodies and from bracketed or repeated
      query and form keys (`?user=a&user=b`, `user[x]=1`). */
  datatype Value =
    | Absent
    | Null
    | Bool(b: bool)
    | Int(i: int)
    | Num(x: real)
    | Str(s: string)
    | Arr(items: seq<Value>)
    | Obj(members: map<string, Value>)

  /** JavaScript truthiness: a missing value, null, false, the number 0 and the empty
      string are falsy; every array and every object is truthy, empty or not. */
  predicate Truthy(v: Value) {
    match v
    case Absent => false
    case Null => false
    case Bool(b) => b
    case Int(i) => i != 0
    case Num(x) => x != 0.0
    case Str(s) => s != ""
    case Arr(_) => true
    case Obj(_) => true
  }

  /** Python truthiness: as in JavaScript, except that an empty list or dict is falsy. */
  predicate PyTruthy(v: Value) {
    match v
    case Arr(items) => items != []
    case Obj(members) => members != map[]
    case _ => Truthy(v)
  }

  /** `obj[key]` in JavaScript: a missing member reads as `undefined`. */
  function Member(obj: map<string, Value>, key: string): Value {
    if key in obj then obj[key] else Absent
  }

  /** `obj.get(key)` in Python: a missing member reads as `None`. */
  function Get(obj: map<string, Value>, key: string): Value {
    if key in obj then obj[key] else Null
  }

  /** JavaScript's `a || b`: the left operand when it is truthy, otherwise the right one. */
  function Or(a: Value, b: Value): (r: Value)
    ensures Truthy(r) <==> Truthy(a) || Truthy(b)
    ensures r == a || r == b
  {
    if Truthy(a) then a else b
  }

  function DigitChar(d: nat): (c: char)
    requires d < 10
    ensures '0' <= c <= '9'
    ensures c as int - '0' as int == d
  {
    ('0' as int + d) as char
  }

  /** The number a string of decimal digits stands for. */
  function DigitsValue(s: string): nat
    requires forall i | 0 <= i < |s| :: '0' <= s[i] <= '9'
  {
    if s == [] then 0 else DigitsValue(s[..|s| - 1]) * 10 + (s[|s| - 1] as int - '0' as int)
  }

  /** Decimal digits of a natural number, most significant first, without leading zeros. */
  function NaturalText(n: nat): (s: string)
    ensures s != []
    ensures forall i | 0 <= i < |s| :: '0' <= s[i] <= '9'
    ensures s[0] == '0' ==> n == 0 && s == "0"
  {
    if n < 10 then [DigitChar(n)] else NaturalText(n / 10) + [DigitChar(n % 10)]
  }

  /** Reading the digits back gives the number. */
  lemma {:induction false} NaturalTextValue(n: nat)
    ensures DigitsValue(NaturalText(n)) == n
  {
    var s := NaturalText(n);
    if n >= 10 {
      NaturalTextValue(n / 10);
      assert s[..|s| - 1] == NaturalText(n / 10);
    }
  }

  /** Decimal text of an integer, with a leading '-' when negative. */
  function IntText(i: int): (s: string)
    ensures s != []
    ensures i >= 0 ==> '-' !in s
  {
    if i < 0 then "-" + NaturalText(-i) else NaturalText(i)
  }

  /** `String(x)` for a number: the decimal text of its floor, which is what JavaScript
      writes for an integral number below 10^21 in magnitude (see README, Left out). */
  function NumberText(x: real): (s: string)
    ensures s != []
  {
    IntText(x.Floor)
  }

  /** JavaScript's `v.toString()` (`String(v)` for the two values that have no method).
      An array joins its elements' texts with commas, an object is `[object Object]`. */
  function ToText(v: Value): (s: string)
    ensures Truthy(v) && !v.Arr? ==> s != ""
    ensures v.Str? ==> s == v.s
    ensures v == Arr([]) || v == Arr([Str("")]) ==> s == ""
  {
    match v
    case Absent => "undefined"
    case Null => "null"
    case Bool(b) => if b then "true" else "false"
    case Int(i) => IntText(i)
    case Num(x) => NumberText(x)
    case Str(t) => t
    case Arr(items) => JoinText(items)
    case Obj(_) => "[object Object]"
  }

  /** `Array.prototype.join(",")`: null and undefined elements contribute no text. */
  function JoinText(items: seq<Value>): string
    decreases items
  {
    if items == [] then ""
    else
      var first := if items[0] == Null || items[0] == Absent then "" else ToText(items[0]);
      if |items| == 1 then first else first + "," + JoinText(items[1..])
  }

  /** `(v || '').toString()`: the credential text of a login or register form field.
      It is empty exactly when the field is falsy or is an array whose text is empty. */
  function Credential(v: Value): (s: string)
    ensures s == "" <==> !Truthy(v) || ToText(v) == ""
    ensures Truthy(v) ==> s == ToText(v)
  {
    ToText(Or(v, Str("")))
  }
}

=== FILE: paths.dfy ===
/**
  File-name arithmetic used by the two upload handlers: Node's
  `path.extname` (POSIX flavour), Python's `os.path.splitext` (posixpath),
  and the rule that names an uploaded photo by a fresh token followed by the
  original extension, or `.jpg` when there is none.
 */
module Paths {

  /** Index of the last occurrence of `c` in `s`, or -1. */
  function LastIndex(s: string, c: char): (k: int)
    ensures -1 <= k < |s|
    ensures k == -1 <==> c !in s
    ensures 0 <= k ==> s[k] == c
    ensures forall j | k < j < |s| :: s[j] != c
  {
    if s == [] then -1
    else if s[|s| - 1] == c then |s| - 1
    else
      assert s == s[..|s| - 1] + [s[|s| - 1]];
      LastIndex(s[..|s| - 1], c)
  }

  lemma LastIndexIs(s: string, c: char, k: int)
    requires 0 <= k < |s| && s[k] == c
    requires forall j | k < j < |s| :: s[j] != c
    ensures LastIndex(s, c) == k
  {
  }

  /** Drops the slashes that end `p`. */
  function TrimTrailingSlashes(p: string): (t: string)
    ensures |t| <= |p| && t == p[..|t|]
    ensures t == [] || t[|t| - 1] != '/'
    ensures forall i | |t| <= i < |p| :: p[i] == '/'
  {
    if p != [] && p[|p| - 1] == '/' then TrimTrailingSlashes(p[..|p| - 1]) else p
  }

  /** The last path component, trailing slashes ignored. */
  function Basename(p: string): (b: string)
    ensures '/' !in b
  {
    var t := TrimTrailingSlashes(p);
    t[LastIndex(t, '/') + 1..]
  }

  /** The shape of every extension either function below returns:
      a dot followed by neither a slash nor another dot. */
  predicate IsExtension(e: string) {
    e != [] && e[0] == '.' && '/' !in e && '.' !in e[1..]
  }

  /** Node's `path.extname`: from the last dot of the base name, unless that dot
      opens the base name or the base name is `..`. */
  function Extname(p: string): (e: string)
    ensures e == "" || IsExtension(e)
  {
    var b := Basename(p);
    var k := LastIndex(b, '.');
    if k <= 0 || b == ".." then "" else b[k..]
  }

  predicate AllDots(s: string) {
    forall i | 0 <= i < |s| :: s[i] == '.'
  }

  /** The extension half of Python's `os.path.splitext`: from the last dot after the
      last slash, unless only dots precede it in the last component. */
  function SplitExt(p: string): (e: string)
    ensures e == "" || IsExtension(e)
    ensures e != "" ==> |e| <= |p| && p[|p| - |e|..] == e
  {
    var sep := LastIndex(p, '/');
    var dot := LastIndex(p, '.');
    if dot > sep && !AllDots(p[sep + 1..dot]) then
      TailExtension(p, sep, dot);
      p[dot..]
    else ""
  }

  /** The text from the last dot on, when that dot follows the last slash, is an extension. */
  lemma TailExtension(p: string, sep: int, dot: int)
    requires -1 <= sep < dot < |p| && p[dot] == '.'
    requires forall j | sep < j < |p| :: p[j] != '/'
    requires forall j | dot < j < |p| :: p[j] != '.'
    ensures IsExtension(p[dot..])
  {
    var e := p[dot..];
    forall i | 0 <= i < |e| ensures e[i] != '/' {
      assert e[i] == p[dot + i];
    }
    forall i | 0 <= i < |e[1..]| ensures e[1..][i] != '.' {
      assert e[1..][i] == p[dot + 1 + i];
    }
  }

  const DefaultExtension := ".jpg"

  /** `ext || '.jpg'` (server.js) and `ext or '.jpg'` (main.py). */
  function KeptExtension(ext: string): (e: string)
    requires ext == "" || IsExtension(ext)
    ensures IsExtension(e)
    ensures ext != "" ==> e == ext
  {
    if ext != "" then ext else DefaultExtension
  }

  predicate IsHexDigit(c: char) {
    '0' <= c <= '9' || 'a' <= c <= 'f'
  }

  /** The text form of a version-4 UUID: 36 characters, dashes at 8, 13, 18 and 23. */
  predicate IsUuid(t: string) {
    |t| == 36 &&
    forall i | 0 <= i < |t| ::
      if i == 8 || i == 13 || i == 18 || i == 23 then t[i] == '-' else IsHexDigit(t[i])
  }

  /** The stored name of an uploaded photo: the fresh token, then the kept extension. */
  function UploadName(token: string, ext: string): (name: string)
    requires ext == "" || IsExtension(ext)
    ensures |name| > |token| && name[..|token|] == token
    ensures IsExtension(name[|token|..])
    ensures ext != "" ==> name[|token|..] == ext
  {
    token + KeptExtension(ext)
  }

  /** In a name with no slash whose last dot is at `k > 0`, past a first character
      that is not a dot, both rules find the extension `name[k..]`. */
  lemma PlainNameExtension(name: string, k: int)
    requires forall i | 0 <= i < |name| :: name[i] != '/'
    requires 0 < k < |name| && name[k] == '.' && name[0] != '.'
    requires forall j | k < j < |name| :: name[j] != '.'
    ensures Extname(name) == name[k..]
    ensures SplitExt(name) == name[k..]
  {
    NoSlashBasename(name);
    LastIndexIs(name, '.', k);
    assert Extname(name) == name[k..] by {
      assert name != "..";
    }
    assert !AllDots(name[0..k]) by {
      assert name[0..k][0] == name[0];
    }
  }

  lemma NoSlashBasename(name: string)
    requires forall i | 0 <= i < |name| :: name[i] != '/'
    ensures LastIndex(name, '/') == -1
    ensures Basename(name) == name
  {
    assert '/' !in name;
    assert TrimTrailingSlashes(name) == name;
  }

  /** A stored name gives back the extension it was made with, under either rule. */
  lemma UploadNameExtension(token: string, ext: string)
    requires IsUuid(token)
    requires ext == "" || IsExtension(ext)
    ensures Extname(UploadName(token, ext)) == KeptExtension(ext)
    ensures SplitExt(UploadName(token, ext)) == KeptExtension(ext)
  {
    var e := KeptExtension(ext);
    var name := token + e;
    assert forall i | 0 <= i < |token| :: token[i] != '/' && token[i] != '.';
    forall i | 0 <= i < |name| ensures name[i] != '/' {
      if i >= |token| { assert name[i] == e[i - |token|]; assert e[i - |token|] in e; }
    }
    forall j | |token| < j < |name| ensures name[j] != '.' {
      assert name[j] == e[1..][j - |token| - 1];
      assert e[1..][j - |token| - 1] in e[1..];
    }
    PlainNameExtension(name, |token|);
    assert name[|token|..] == e;
  }

  /** The two rules agree on a plain file name that does not begin with a dot. */
  lemma ExtensionRulesAgree(name: string)
    requires name != "" && name[0] != '.' && '/' !in name
    ensures Extname(name) == SplitExt(name)
  {
    var k := LastIndex(name, '.');
    if k > 0 {
      PlainNameExtension(name, k);
    } else {
      NoSlashBasename(name);
    }
  }

  /** A name whose last dot ends a run of two or more leading dots, as in `..png`
      or `...`, other than `..` itself. */
  predicate LeadingDotRun(name: string) {
    var k := LastIndex(name, '.');
    k >= 1 && AllDots(name[..k]) && name != ".."
  }

  lemma ExtnameNoSlash(name: string)
    requires '/' !in name
    ensures var k := LastIndex(name, '.');
            Extname(name) == if k <= 0 || name == ".." then "" else name[k..]
  {
    NoSlashBasename(name);
  }

  lemma SplitExtNoSlash(name: string)
    requires '/' !in name
    ensures var k := LastIndex(name, '.');
            SplitExt(name) == if k >= 0 && !AllDots(name[..k]) then name[k..] else ""
  {
    var sep := LastIndex(name, '/');
    var k := LastIndex(name, '.');
    assert sep == -1;
    if k >= 0 {
      assert name[sep + 1..k] == name[..k];
    }
  }

  /** No dot past the first character: both rules give nothing. */
  lemma RulesAgreeWithoutDot(name: string)
    requires '/' !in name && LastIndex(name, '.') <= 0
    ensures Extname(name) == SplitExt(name) == "" && !LeadingDotRun(name)
  {
    ExtnameNoSlash(name);
    SplitExtNoSlash(name);
    if LastIndex(name, '.') == 0 {
      assert AllDots(name[..0]);
    }
  }

  /** `..`: both rules give nothing. */
  lemma RulesAgreeOnParent(name: string)
    requires '/' !in name && name == ".."
    ensures Extname(name) == SplitExt(name) == "" && !LeadingDotRun(name)
  {
    ExtnameNoSlash(name);
    SplitExtNoSlash(name);
    LastIndexIs(name, '.', 1);
    assert AllDots(name[..1]);
  }

  /** A last dot past the first character: `extname` gives the text from it, and
      `splitext` does too unless only dots precede it. */
  lemma RulesWithLaterDot(name: string)
    requires '/' !in name && LastIndex(name, '.') >= 1 && name != ".."
    ensures Extname(name) == name[LastIndex(name, '.')..] != ""
    ensures SplitExt(name) == if LeadingDotRun(name) then "" else Extname(name)
  {
    ExtnameNoSlash(name);
    SplitExtNoSlash(name);
  }

  /** On a name without a slash the two rules disagree exactly on a leading dot run:
      there `extname` gives the text from the last dot and `splitext` gives nothing. */
  lemma ExtensionRulesDiffer(name: string)
    requires '/' !in name
    ensures Extname(name) != SplitExt(name) <==> LeadingDotRun(name)
    ensures LeadingDotRun(name) ==> Extname(name) == name[LastIndex(name, '.')..] && SplitExt(name) == ""
  {
    if LastIndex(name, '.') <= 0 {
      RulesAgreeWithoutDot(name);
    } else if name == ".." {
      RulesAgreeOnParent(name);
    } else {
      RulesWithLaterDot(name);
    }
  }

  /** `..png` is stored as `.png` by one server and falls back to `.jpg` in the other. */
  lemma DoubleDotName()
    ensures Extname("..png") == ".png" && SplitExt("..png") == ""
  {
    var n := "..png";
    assert '/' !in n;
    LastIndexIs(n, '.', 1);
    assert AllDots(n[..1]);
    assert n[1..] == ".png";
    ExtensionRulesDiffer(n);
  }

  /** Where the rules part: a name of three or more dots, such as `...`. */
  lemma DotsOnlyDiffer(d: string)
    requires |d| >= 3 && AllDots(d)
    ensures Extname(d) == "." && SplitExt(d) == ""
  {
    assert '/' !in d;
    NoSlashBasename(d);
    var k := |d| - 1;
    LastIndexIs(d, '.', k);
    assert d != ".." by { assert |d| != |".."|; }
    assert d[k..] == [d[k]];
    assert AllDots(d[0..k]);
  }

  /** Where the rules part: a trailing slash. */
  lemma TrailingSlashDiffer()
    ensures Extname("rib.png/") == ".png" && SplitExt("rib.png/") == ""
  {
    var p := "rib.png/";
    var t := "rib.png";
    assert p[..7] == t;
    assert TrimTrailingSlashes(t) == t;
    assert TrimTrailingSlashes(p) == t;
    assert '/' !in t;
    assert LastIndex(t, '/') == -1;
    assert Basename(p) == t;
    LastIndexIs(t, '.', 3);
    assert t[3..] == ".png";
    LastIndexIs(p, '/', 7);
    LastIndexIs(p, '.', 3);
  }
}

=== FILE: scenarios.dfy ===
/**
  Sequences of requests, each proved from the handlers' contracts alone:
  what a client of either server can rely on across calls.
 */
module SteakScenarios {
  import opened Json
  import S = SteakServer
  import F = SteakFlask

  function Ask(user: string, body: map<string, Value>): S.Request {
    S.Request(Str(user), body, map[])
  }

  /** Alice logs a ribeye; her list holds exactly that entry and Bob's list is empty. */
  method AddThenList(store: S.Store, id: string, ts: string) returns (added: S.Response, alice: S.Response, bob: S.Response)
    requires store.Valid() && store.steaks == []
    modifies store
    ensures added.status == 200 && added.payload.Entry?
    ensures added.payload.steak ==
              S.Steak(id, "alice", Str("Ribeye Steak"), Num(12.5), Num(300.0), Null, ts)
    ensures alice == S.Response(200, S.Entries([added.payload.steak]))
    ensures bob == S.Response(200, S.Entries([]))
  {
    var body := map["type" := Str("Ribeye Steak"), "cost" := Num(12.5), "weight" := Num(300.0)];
    assert Member(body, "type") == Str("Ribeye Steak") && Member(body, "photo") == Absent;
    assert S.HasSteakFields(body);
    assert S.ResolveOwner(Ask("alice", body)) == "alice";
    assert !S.IdTaken(store.steaks, id);
    added := store.AddSteak(Ask("alice", body), id, ts, None);
    var row := added.payload.steak;
    assert store.steaks == [row];
    assert S.ResolveOwner(Ask("alice", map[])) == "alice";
    alice := store.ListSteaks(Ask("alice", map[]), None);
    var rows := alice.payload.steaks;
    assert multiset(rows) == multiset{row} by {
      S.OwnedByCount(store.steaks, "alice", row);
      assert S.OwnedBy(store.steaks, "alice") == [row];
    }
    assert |rows| == 1 && rows[0] in multiset(rows);
    assert rows == [row];
    assert S.ResolveOwner(Ask("bob", map[])) == "bob";
    bob := store.ListSteaks(Ask("bob", map[]), None);
    assert S.OwnedBy(store.steaks, "bob") == [];
    assert |multiset(bob.payload.steaks)| == 0;
  }

  /** Bob cannot delete Alice's entry, and is told exactly what he would be told for an
      id that does not exist; the entry stays. */
  method DeleteIsPrivate(store: S.Store, id: string, missing: string)
    returns (foreign: S.Response, absent: S.Response)
    requires store.Valid() && |store.steaks| == 1 && store.steaks[0].id == id && store.steaks[0].user == "alice"
    requires missing != id
    modifies store
    ensures foreign == absent
    ensures foreign.status == 404
    ensures store.steaks == old(store.steaks)
  {
    var unlink;
    foreign, unlink := store.DeleteSteak(Ask("bob", map[]), id, None, None);
    absent, unlink := store.DeleteSteak(Ask("bob", map[]), missing, None, None);
  }

  /** A registered name logs in with its password; registering the name again fails with
      409 and the first password still works, so the stored hash was kept. */
  method RegisterThenLogin(store: S.Store, name: string, password: string, hash: string, hash2: string,
                           compare: (string, string) -> bool)
    returns (first: S.Response, login: S.Response, second: S.Response, again: S.Response)
    requires store.Valid() && S.Lookup(store.users, name).None?
    requires name != "" && password != "" && compare(password, hash)
    modifies store
    ensures first == S.Response(200, S.User(name)) && login == first && again == first
    ensures second == S.Response(409, S.Error("User exists"))
  {
    var body := map["username" := Str(name), "password" := Str(password)];
    var req := S.Request(Absent, body, map[]);
    first := store.Register(req, hash, None, None);
    S.LookupAfterRegister(old(store.users), name, hash);
    login := store.Login(req, compare, None);
    second := store.Register(req, hash2, None, None);
    again := store.Login(req, compare, None);
  }

  /** In the Flask store, emptying the table does not reset the counter: the next id is
      larger than any handed out before. */
  method DeleteAllKeepsCounting(db: F.SteakDb, now: string) returns (before: Option<int>, after: Option<int>)
    requires db.Valid() && db.lastId < F.MaxRowId - 1
    modifies db
    ensures before.Some? && after.Some? && after.value > before.value
    ensures forall n | n in old(db.issued) + {before.value} :: n < after.value
    ensures db.rows == [(after.value, Str("Filet"), Num(0.0), Num(0.0), Null, now)]
  {
    before := db.AddSteak(Str("Filet"), Num(0.0), Num(0.0), Null, now);
    db.DeleteAll();
    var rows := db.GetSteaks();
    assert rows == [];
    after := db.AddSteak(Str("Filet"), Num(0.0), Num(0.0), Null, now);
  }

  /** A steak that cost nothing: server.js refuses it (0 is falsy), main.py stores it
      (0 is not None). */
  method ZeroCostDiffers(store: S.Store, db: F.SteakDb, id: string, ts: string)
    returns (express: S.Response, flask: F.Response)
    requires store.Valid() && db.Valid() && db.lastId < F.MaxRowId
    modifies store, db
    ensures express == S.Response(400, S.Error("Missing fields")) && store.steaks == old(store.steaks)
    ensures flask.status == 200 && |db.rows| == |old(db.rows)| + 1
  {
    var body := map["type" := Str("Sirloin Steak"), "cost" := Num(0.0), "weight" := Num(250.0)];
    express := store.AddSteak(S.Request(Absent, body, map[]), id, ts, None);
    flask := F.AddSteak(db, body, ts);
  }

  /** A list as the steak type passes main.py's field test but cannot be bound to the
      INSERT: the answer is 500 and the table is unchanged. */
  method ListTypeRefused(db: F.SteakDb, now: string) returns (resp: F.Response)
    requires db.Valid()
    modifies db
    ensures resp == F.Response(500, F.ServerError)
    ensures db.rows == old(db.rows) && db.lastId == old(db.lastId)
  {
    var body := map["type" := Arr([Str("Ribeye")]), "cost" := Num(1.0), "weight" := Num(1.0)];
    resp := F.AddSteak(db, body, now);
  }

  /** An integer type of 2^63 passes main.py's field test but does not fit SQLite's
      INTEGER: binding it raises, the answer is 500 and the table is unchanged. */
  method HugeIntTypeRefused(db: F.SteakDb, now: string) returns (resp: F.Response)
    requires db.Valid()
    modifies db
    ensures resp == F.Response(500, F.ServerError)
    ensures db.rows == old(db.rows) && db.lastId == old(db.lastId)
  {
    var body := map["type" := Int(F.MaxInteger + 1), "cost" := Int(1), "weight" := Int(1)];
    resp := F.AddSteak(db, body, now);
  }
}

=== FILE: server.dfy ===
/**
  The Express server (server.js): identity resolution, the upload naming rule,
  and the handlers over the `steaks` and `users` tables of the SQLite
  database. Each table is a sequence of rows held by a `Store` object; each
  handler is a method that returns the HTTP status with the JSON payload.
  Foreign results (a fresh uuid, the clock, bcrypt, a failing SQL statement)
  arrive as parameters.
 */
module SteakServer {
  import opened Json
  import opened Collation
  import opened Paths

  /** The owner of requests that name nobody. */
  const Anonymous := "anonymous"

  /** What SQLite reports when an INSERT repeats a `steaks.id` (its PRIMARY KEY). */
  const DuplicateIdMessage := "SQLITE_CONSTRAINT: UNIQUE constraint failed: steaks.id"

  const NotFoundMessage := "Not found or not your steak"

  /** What a handler reads from a request: the `x-user-id` header, the parsed body
      and the parsed query string. */
  datatype Request = Request(header: Value, body: map<string, Value>, query: map<string, Value>)

  /** A row of `steaks`. `user` is the `user_id` column (listed under the name `user`),
      `kind` the `type` column. */
  datatype Steak = Steak(id: string, user: string, kind: Value, cost: Value, weight: Value,
                         photo: Value, timestamp: string)

  /** A row of `users`: a name and the bcrypt hash of its password. */
  datatype Account = Account(username: string, hash: string)

  /** The JSON a handler sends. */
  datatype Payload =
    | Error(message: string)       // { error }
    | Filename(name: string)       // { filename }
    | Entry(steak: Steak)          // the row just added
    | Entries(steaks: seq<Steak>)  // the rows listed
    | Done                         // { ok: true }
    | User(user: string)           // { user }
    | Names(names: seq<string>)    // [{ username }, ...]

  datatype Response = Response(status: int, payload: Payload)

  /** `getUserIdFromReq`: the first truthy of the header, the body's `user` and the query's
      `user`, as text; `anonymous` when none is truthy. The text is empty only when the
      value chosen is an array, such as `[]`, that joins to nothing. */
  function ResolveOwner(req: Request): (owner: string)
    ensures owner == "" ==> req.header.Arr? || Member(req.body, "user").Arr? || Member(req.query, "user").Arr?
    ensures Truthy(req.header) ==> owner == ToText(req.header)
    ensures !Truthy(req.header) && Truthy(Member(req.body, "user")) ==>
              owner == ToText(Member(req.body, "user"))
    ensures !Truthy(req.header) && !Truthy(Member(req.body, "user")) && Truthy(Member(req.query, "user")) ==>
              owner == ToText(Member(req.query, "user"))
    ensures !Truthy(req.header) && !Truthy(Member(req.body, "user")) && !Truthy(Member(req.query, "user")) ==>
              owner == Anonymous
  {
    ToText(Or(req.header, Or(Member(req.body, "user"), Or(Member(req.query, "user"), Str(Anonymous)))))
  }

  /** A body `{"user": []}` is truthy but names the empty owner, not `anonymous`. */
  lemma EmptyArrayOwner(header: Value, query: map<string, Value>)
    requires !Truthy(header)
    ensures ResolveOwner(Request(header, map["user" := Arr([])], query)) == ""
  {
  }

  /** POST /upload. `file` is the original name of the `photo` part when there is one;
      multer has already stored it under a fresh uuid `token` and the kept extension. */
  function Upload(file: Option<string>, token: string): (r: Response)
    requires IsUuid(token)
    ensures file.None? <==> r == Response(400, Error("No file"))
    ensures file.Some? ==> r.status == 200 && r.payload.Filename?
    ensures file.Some? ==> |r.payload.name| > |token| && r.payload.name[..|token|] == token
    ensures file.Some? ==> Extname(r.payload.name) == KeptExtension(Extname(file.value))
    ensures file.Some? ==> r.payload.name == token + KeptExtension(Extname(file.value))
  {
    match file
    case None => Response(400, Error("No file"))
    case Some(original) =>
      UploadNameExtension(token, Extname(original));
      Response(200, Filename(UploadName(token, Extname(original))))
  }

  /** The `!type || !cost || !weight` test of POST /add_steak, negated. */
  predicate HasSteakFields(body: map<string, Value>) {
    Truthy(Member(body, "type")) && Truthy(Member(body, "cost")) && Truthy(Member(body, "weight"))
  }

  predicate UniqueIds(steaks: seq<Steak>) {
    forall i, j | 0 <= i < j < |steaks| :: steaks[i].id != steaks[j].id
  }

  predicate UniqueNames(users: seq<Account>) {
    forall i, j | 0 <= i < j < |users| :: users[i].username != users[j].username
  }

  predicate IdTaken(steaks: seq<Steak>, id: string) {
    exists i | 0 <= i < |steaks| :: steaks[i].id == id
  }

  /** The `WHERE id = ? AND user_id = ?` condition of DELETE /steak/:id. */
  predicate Matches(s: Steak, id: string, owner: string) {
    s.id == id && s.user == owner
  }

  /** `SELECT ... FROM steaks WHERE user_id = ?`, before ordering: each row of the owner
      as often as in the table, and no other row. */
  function OwnedBy(steaks: seq<Steak>, owner: string): (r: seq<Steak>)
    ensures |r| <= |steaks|
  {
    if steaks == [] then []
    else (if steaks[0].user == owner then [steaks[0]] else []) + OwnedBy(steaks[1..], owner)
  }

  lemma {:induction false} OwnedByCount(steaks: seq<Steak>, owner: string, x: Steak)
    ensures multiset(OwnedBy(steaks, owner))[x] == if x.user == owner then multiset(steaks)[x] else 0
    decreases |steaks|
  {
    if steaks != [] {
      assert steaks == [steaks[0]] + steaks[1..];
      OwnedByCount(steaks[1..], owner, x);
    }
  }

  function Timestamp(s: Steak): string { s.timestamp }

  /** `SELECT * FROM steaks WHERE id = ? AND user_id = ?`: a matching row, if any. */
  function Find(steaks: seq<Steak>, id: string, owner: string): (r: Option<Steak>)
    ensures r.None? <==> forall i | 0 <= i < |steaks| :: !Matches(steaks[i], id, owner)
    ensures r.Some? ==> r.value in steaks && Matches(r.value, id, owner)
  {
    if steaks == [] then None
    else if Matches(steaks[0], id, owner) then Some(steaks[0])
    else
      var r := Find(steaks[1..], id, owner);
      assert forall i | 1 <= i < |steaks| :: steaks[i] == steaks[1..][i - 1];
      r
  }

  /** `DELETE FROM steaks WHERE id = ? AND user_id = ?`: every matching row goes,
      every other row stays, in its order. */
  function Without(steaks: seq<Steak>, id: string, owner: string): (r: seq<Steak>)
    ensures |r| <= |steaks|
  {
    if steaks == [] then []
    else (if Matches(steaks[0], id, owner) then [] else [steaks[0]]) + Without(steaks[1..], id, owner)
  }

  lemma {:induction false} WithoutCount(steaks: seq<Steak>, id: string, owner: string, x: Steak)
    ensures multiset(Without(steaks, id, owner))[x] == if Matches(x, id, owner) then 0 else multiset(steaks)[x]
    decreases |steaks|
  {
    if steaks != [] {
      assert steaks == [steaks[0]] + steaks[1..];
      WithoutCount(steaks[1..], id, owner, x);
    }
  }

  /** `SELECT password FROM users WHERE username = ?`: the stored hash, if the name is there. */
  function Lookup(users: seq<Account>, name: string): (r: Option<string>)
    ensures r.None? <==> forall i | 0 <= i < |users| :: users[i].username != name
    ensures r.Some? ==> Account(name, r.value) in users
  {
    if users == [] then None
    else if users[0].username == name then Some(users[0].hash)
    else
      assert forall i | 1 <= i < |users| :: users[i] == users[1..][i - 1];
      Lookup(users[1..], name)
  }

  /** The `username` column, in table order. */
  function Usernames(users: seq<Account>): (r: seq<string>)
    ensures |r| == |users|
    ensures forall i | 0 <= i < |users| :: r[i] == users[i].username
  {
    seq(|users|, i requires 0 <= i < |users| => users[i].username)
  }

  /** The `username` PRIMARY KEY holds exactly when the listed names have no repeats. */
  lemma UniqueNamesDistinct(users: seq<Account>)
    ensures UniqueNames(users) <==> Distinct(Usernames(users))
  {
    var names := Usernames(users);
    if UniqueNames(users) {
      forall i, j | 0 <= i < j < |names| ensures names[i] != names[j] {
        assert names[i] == users[i].username && names[j] == users[j].username;
      }
    }
    if Distinct(names) {
      forall i, j | 0 <= i < j < |users| ensures users[i].username != users[j].username {
        assert names[i] == users[i].username && names[j] == users[j].username;
      }
    }
  }

  lemma {:induction false} OwnedByAppend(a: seq<Steak>, b: seq<Steak>, owner: string)
    ensures OwnedBy(a + b, owner) == OwnedBy(a, owner) + OwnedBy(b, owner)
    decreases |a|
  {
    if a != [] {
      assert (a + b)[1..] == a[1..] + b;
      OwnedByAppend(a[1..], b, owner);
    } else {
      assert a + b == b;
    }
  }

  /** After an add, the new row is among its owner's rows and every other owner's rows are
      what they were. */
  lemma AddedSteakListed(steaks: seq<Steak>, row: Steak)
    ensures row in OwnedBy(steaks + [row], row.user)
    ensures forall owner | owner != row.user :: OwnedBy(steaks + [row], owner) == OwnedBy(steaks, owner)
  {
    OwnedByAppend(steaks, [row], row.user);
    assert OwnedBy([row], row.user) == [row];
    forall owner | owner != row.user
      ensures OwnedBy(steaks + [row], owner) == OwnedBy(steaks, owner)
    {
      OwnedByAppend(steaks, [row], owner);
      assert OwnedBy([row], owner) == [];
      assert OwnedBy(steaks, owner) + [] == OwnedBy(steaks, owner);
    }
  }

  /** Two rows of a table with unique ids that share an id are the same row. */
  lemma SameIdSameRow(steaks: seq<Steak>, x: Steak, y: Steak)
    requires UniqueIds(steaks) && x in steaks && y in steaks && x.id == y.id
    ensures x == y
  {
    var i :| 0 <= i < |steaks| && steaks[i] == x;
    var j :| 0 <= j < |steaks| && steaks[j] == y;
    assert i == j;
  }

  lemma {:induction false} UniqueRowCount(steaks: seq<Steak>, x: Steak)
    requires UniqueIds(steaks) && x in steaks
    ensures multiset(steaks)[x] == 1
    decreases |steaks|
  {
    assert steaks == [steaks[0]] + steaks[1..];
    assert UniqueIds(steaks[1..]);
    if x == steaks[0] {
      forall i | 0 <= i < |steaks[1..]| ensures steaks[1..][i] != x {
        assert steaks[1..][i] == steaks[i + 1];
      }
      assert x !in steaks[1..];
    } else {
      UniqueRowCount(steaks[1..], x);
    }
  }

  /** A successful delete takes away exactly the matching row, and nothing else. */
  lemma DeleteRemovesOne(steaks: seq<Steak>, id: string, owner: string)
    requires UniqueIds(steaks) && Find(steaks, id, owner).Some?
    ensures multiset(Without(steaks, id, owner)) == multiset(steaks) - multiset{Find(steaks, id, owner).value}
    ensures |Without(steaks, id, owner)| == |steaks| - 1
  {
    var row := Find(steaks, id, owner).value;
    var w := Without(steaks, id, owner);
    forall x ensures multiset(w)[x] == (multiset(steaks) - multiset{row})[x] {
      WithoutCount(steaks, id, owner, x);
      if Matches(x, id, owner) && x in steaks {
        SameIdSameRow(steaks, x, row);
        UniqueRowCount(steaks, x);
      }
    }
    assert multiset(w) == multiset(steaks) - multiset{row};
    UniqueRowCount(steaks, row);
    assert |multiset(w)| == |multiset(steaks)| - 1;
  }

  /** After a delete, no row of the owner carries the id any more. */
  lemma DeleteLeavesNoMatch(steaks: seq<Steak>, id: string, owner: string)
    ensures Find(Without(steaks, id, owner), id, owner).None?
  {
    var w := Without(steaks, id, owner);
    forall i | 0 <= i < |w| ensures !Matches(w[i], id, owner) {
      WithoutCount(steaks, id, owner, w[i]);
      assert multiset(w)[w[i]] > 0;
    }
  }

  /** A delete leaves every other owner's rows as they were. */
  lemma {:induction false} DeleteLeavesOthers(steaks: seq<Steak>, id: string, owner: string, other: string)
    requires other != owner
    ensures OwnedBy(Without(steaks, id, owner), other) == OwnedBy(steaks, other)
    decreases |steaks|
  {
    if steaks != [] {
      DeleteLeavesOthers(steaks[1..], id, owner, other);
      var w := Without(steaks[1..], id, owner);
      if !Matches(steaks[0], id, owner) {
        assert ([steaks[0]] + w)[0] == steaks[0];
        assert ([steaks[0]] + w)[1..] == w;
      } else {
        assert Without(steaks, id, owner) == [] + w == w;
        assert OwnedBy(steaks, other) == [] + OwnedBy(steaks[1..], other);
      }
    }
  }

  /** Deleting keeps the ids of the remaining rows unique. */
  lemma {:induction false} WithoutUnique(steaks: seq<Steak>, id: string, owner: string)
    requires UniqueIds(steaks)
    ensures UniqueIds(Without(steaks, id, owner))
    decreases |steaks|
  {
    if steaks != [] {
      var rest := steaks[1..];
      assert forall i | 0 <= i < |rest| :: rest[i] == steaks[i + 1];
      WithoutUnique(rest, id, owner);
      var w := Without(rest, id, owner);
      if !Matches(steaks[0], id, owner) {
        forall k | 0 <= k < |w| ensures w[k].id != steaks[0].id {
          WithoutCount(rest, id, owner, w[k]);
          assert multiset(w)[w[k]] > 0;
          var j :| 0 <= j < |rest| && rest[j] == w[k];
        }
        var r := [steaks[0]] + w;
        assert forall k | 1 <= k < |r| :: r[k] == w[k - 1];
      }
    }
  }

  /** After a name is registered, looking it up gives the hash stored with it, and every
      other name looks up as before. */
  lemma {:induction false} LookupAfterRegister(users: seq<Account>, name: string, hash: string)
    requires Lookup(users, name).None?
    ensures Lookup(users + [Account(name, hash)], name) == Some(hash)
    ensures forall other | other != name :: Lookup(users + [Account(name, hash)], other) == Lookup(users, other)
    decreases |users|
  {
    if users != [] {
      assert (users + [Account(name, hash)])[1..] == users[1..] + [Account(name, hash)];
      assert users[0] == users[0];
      LookupAfterRegister(users[1..], name, hash);
    }
  }

  /** In a table with unique names, a stored account is the one `Lookup` finds. */
  lemma LookupFindsAccount(users: seq<Account>, name: string, hash: string)
    requires UniqueNames(users) && Account(name, hash) in users
    ensures Lookup(users, name) == Some(hash)
  {
    var h := Lookup(users, name).value;
    var i :| 0 <= i < |users| && users[i] == Account(name, hash);
    var j :| 0 <= j < |users| && users[j] == Account(name, h);
    assert i == j;
  }

  /** The two tables, as the server's SQLite database holds them. */
  class Store {
    var steaks: seq<Steak>
    var users: seq<Account>

    /** The PRIMARY KEYs: `steaks.id` and `users.username` are unique. */
    ghost predicate Valid()
      reads this
    {
      UniqueIds(steaks) && UniqueNames(users)
    }

    /** Opening a database whose tables already hold these rows. */
    constructor Open(steaks0: seq<Steak>, users0: seq<Account>)
      requires UniqueIds(steaks0) && UniqueNames(users0)
      ensures Valid() && steaks == steaks0 && users == users0
    {
      steaks := steaks0;
      users := users0;
    }

    /** POST /add_steak. `id` is the fresh uuid, `ts` the ISO time, `dbErr` a failure
        of the INSERT other than a repeated id. */
    method AddSteak(req: Request, id: string, ts: string, dbErr: Option<string>) returns (resp: Response)
      requires Valid()
      modifies this
      ensures Valid() && users == old(users)
      ensures !HasSteakFields(req.body) ==>
                resp == Response(400, Error("Missing fields")) && steaks == old(steaks)
      ensures HasSteakFields(req.body) && dbErr.Some? ==>
                resp == Response(500, Error(dbErr.value)) && steaks == old(steaks)
      ensures HasSteakFields(req.body) && dbErr.None? && IdTaken(old(steaks), id) ==>
                resp == Response(500, Error(DuplicateIdMessage)) && steaks == old(steaks)
      ensures resp.status == 200 <==> HasSteakFields(req.body) && dbErr.None? && !IdTaken(old(steaks), id)
      ensures resp.status == 200 ==>
                && |steaks| == |old(steaks)| + 1
                && steaks[..|old(steaks)|] == old(steaks)
                && var row := steaks[|old(steaks)|];
                && resp == Response(200, Entry(row))
                && row.id == id && row.user == ResolveOwner(req) && row.timestamp == ts
                && row.kind == Member(req.body, "type")
                && row.cost == Member(req.body, "cost")
                && row.weight == Member(req.body, "weight")
                && (Truthy(Member(req.body, "photo")) ==> row.photo == Member(req.body, "photo"))
                && (!Truthy(Member(req.body, "photo")) ==> row.photo == Null)
    {
      var user := ResolveOwner(req);
      var body := req.body;
      if !HasSteakFields(body) {
        return Response(400, Error("Missing fields"));
      }
      if dbErr.Some? {
        return Response(500, Error(dbErr.value));
      }
      if IdTaken(steaks, id) {
        return Response(500, Error(DuplicateIdMessage));
      }
      var row := Steak(id, user, Member(body, "type"), Member(body, "cost"), Member(body, "weight"),
                       Or(Member(body, "photo"), Null), ts);
      steaks := steaks + [row];
      resp := Response(200, Entry(row));
    }

    /** GET /steaks: the requester's rows, newest first. */
    method ListSteaks(req: Request, dbErr: Option<string>) returns (resp: Response)
      ensures dbErr.Some? ==> resp == Response(500, Error(dbErr.value))
      ensures dbErr.None? ==> resp.status == 200 && resp.payload.Entries?
      ensures dbErr.None? ==>
                var rows := resp.payload.steaks;
                && (forall i | 0 <= i < |rows| :: rows[i].user == ResolveOwner(req) && rows[i] in steaks)
                && (forall s | s in steaks && s.user == ResolveOwner(req) :: s in rows)
                && multiset(rows) == multiset(OwnedBy(steaks, ResolveOwner(req)))
                && SortedBy(rows, Timestamp, true)
    {
      var user := ResolveOwner(req);
      if dbErr.Some? {
        return Response(500, Error(dbErr.value));
      }
      var owned := OwnedBy(steaks, user);
      var rows := SortBy(owned, Timestamp, true);
      forall i | 0 <= i < |rows| ensures rows[i].user == user && rows[i] in steaks {
        assert multiset(rows)[rows[i]] > 0;
        OwnedByCount(steaks, user, rows[i]);
      }
      forall s | s in steaks && s.user == user ensures s in rows {
        assert multiset(steaks)[s] > 0;
        OwnedByCount(steaks, user, s);
      }
      resp := Response(200, Entries(rows));
    }

    /** DELETE /steak/:id. `selectErr` and `deleteErr` are failures of its two statements;
        `unlink` is the photo file the handler then removes, ignoring any error. The
        column holds the photo's text, so an array such as `[]` is stored as empty text
        and nothing is removed. */
    method DeleteSteak(req: Request, id: string, selectErr: Option<string>, deleteErr: Option<string>)
      returns (resp: Response, unlink: Option<Value>)
      requires Valid()
      modifies this
      ensures Valid() && users == old(users)
      ensures var owner := ResolveOwner(req);
              var found := Find(old(steaks), id, owner);
              if selectErr.Some? then
                resp == Response(500, Error(selectErr.value)) && steaks == old(steaks) && unlink == None
              else if found.None? then
                resp == Response(404, Error(NotFoundMessage)) && steaks == old(steaks) && unlink == None
              else if deleteErr.Some? then
                resp == Response(500, Error(deleteErr.value)) && steaks == old(steaks) && unlink == None
              else
                && resp == Response(200, Done)
                && steaks == Without(old(steaks), id, owner)
                && multiset(steaks) == multiset(old(steaks)) - multiset{found.value}
                && (unlink.Some? <==> Truthy(found.value.photo) && ToText(found.value.photo) != "")
                && (unlink.Some? ==> unlink.value == found.value.photo)
    {
      var user := ResolveOwner(req);
      if selectErr.Some? {
        return Response(500, Error(selectErr.value)), None;
      }
      var row := Find(steaks, id, user);
      if row.None? {
        return Response(404, Error(NotFoundMessage)), None;
      }
      if deleteErr.Some? {
        return Response(500, Error(deleteErr.value)), None;
      }
      DeleteRemovesOne(steaks, id, user);
      WithoutUnique(steaks, id, user);
      steaks := Without(steaks, id, user);
      unlink := if Truthy(row.value.photo) && ToText(row.value.photo) != "" then Some(row.value.photo) else None;
      resp := Response(200, Done);
    }

    /** POST /login: reads the table and changes nothing. `compare` is bcrypt's check of a
        password against a stored hash. */
    method Login(req: Request, compare: (string, string) -> bool, dbErr: Option<string>) returns (resp: Response)
      requires Valid()
      ensures var name := Credential(Member(req.body, "username"));
              var password := Credential(Member(req.body, "password"));
              && ((name == "" || password == "") ==> resp == Response(400, Error("Missing credentials")))
              && (name != "" && password != "" && dbErr.Some? ==> resp == Response(500, Error(dbErr.value)))
              && (name != "" && password != "" && dbErr.None? ==>
                    && (Lookup(users, name).None? ==> resp == Response(401, Error("Unknown user")))
                    && (Lookup(users, name).Some? && !compare(password, Lookup(users, name).value) ==>
                          resp == Response(401, Error("Invalid password"))))
              && (resp.status == 200 <==>
                    name != "" && password != "" && dbErr.None? &&
                    exists h :: Account(name, h) in users && compare(password, h))
              && (resp.status == 200 ==> resp.payload == User(name))
    {
      var name := Credential(Member(req.body, "username"));
      var password := Credential(Member(req.body, "password"));
      if name == "" || password == "" {
        return Response(400, Error("Missing credentials"));
      }
      if dbErr.Some? {
        return Response(500, Error(dbErr.value));
      }
      var stored := Lookup(users, name);
      if stored.None? {
        return Response(401, Error("Unknown user"));
      }
      forall h | Account(name, h) in users ensures h == stored.value {
        LookupFindsAccount(users, name, h);
      }
      if !compare(password, stored.value) {
        return Response(401, Error("Invalid password"));
      }
      resp := Response(200, User(name));
    }

    /** POST /register. `hash` is bcrypt's salted hash of the password; `selectErr` and
        `insertErr` are failures of the two statements. */
    method Register(req: Request, hash: string, selectErr: Option<string>, insertErr: Option<string>)
      returns (resp: Response)
      requires Valid()
      modifies this
      ensures Valid() && steaks == old(steaks)
      ensures var name := Credential(Member(req.body, "username"));
              var password := Credential(Member(req.body, "password"));
              if name == "" || password == "" then
                resp == Response(400, Error("Missing username or password")) && users == old(users)
              else if selectErr.Some? then
                resp == Response(500, Error(selectErr.value)) && users == old(users)
              else if Lookup(old(users), name).Some? then
                resp == Response(409, Error("User exists")) && users == old(users)
              else if insertErr.Some? then
                resp == Response(500, Error(insertErr.value)) && users == old(users)
              else
                resp == Response(200, User(name)) && users == old(users) + [Account(name, hash)]
    {
      var name := Credential(Member(req.body, "username"));
      var password := Credential(Member(req.body, "password"));
      if name == "" || password == "" {
        return Response(400, Error("Missing username or password"));
      }
      if selectErr.Some? {
        return Response(500, Error(selectErr.value));
      }
      if Lookup(users, name).Some? {
        return Response(409, Error("User exists"));
      }
      if insertErr.Some? {
        return Response(500, Error(insertErr.value));
      }
      users := users + [Account(name, hash)];
      resp := Response(200, User(name));
    }

    /** GET /users: every name once, in NOCASE order. */
    method ListUsers(dbErr: Option<string>) returns (resp: Response)
      requires Valid()
      ensures dbErr.Some? ==> resp == Response(500, Error(dbErr.value))
      ensures dbErr.None? ==> resp.status == 200 && resp.payload.Names?
      ensures dbErr.None? ==>
                var names := resp.payload.names;
                && multiset(names) == multiset(Usernames(users))
                && Distinct(names)
                && SortedBy(names, NoCase, false)
    {
      if dbErr.Some? {
        return Response(500, Error(dbErr.value));
      }
      var all := Usernames(users);
      var names := SortBy(all, NoCase, false);
      UniqueNamesDistinct(users);
      DistinctPermutation(all, names);
      resp := Response(200, Names(names));
    }
  }
}
